=== FILE: README.md ===
# Minibase heap file and heap scan, modelled in Dafny

This project models the record-bookkeeping core of a Minibase-style heap
file (`heap.HeapFile`) and its sequential scan cursor (`heap.HeapScan`).

- **HeapFile** keeps a record count (`numRecords`, a Java `int`), a list of
  page ids with a parallel list of page buffers, and a `temporary` flag.
  The constructor distinguishes three cases: a `null` name, a name already
  in the disk manager's directory, and a new name. The model covers
  `insertRecord`, `deleteRecord`, `getRecCnt`, `deleteFile` and the argument
  checks of `updateRecord`.
- **HeapScan** walks the file's page-id list. It pins one page at a time
  and moves a cursor through that page's records. Its state is the index
  into the list plus the cursor position.

Everything runs over abstract collaborators:

- The buffer manager (`BufMgr.Pool`) is a pin count per page plus a log of
  the `pinPage`/`unpinPage`/`freePage` calls made to it.
- A page's contents are the sequence of its live RIDs, in the order
  `firstRecord`/`nextRecord` visit them (`ScanStates.Contents`).
- Directory lookups, page allocation, `freePage` failures and the RID and
  record validity checks arrive as parameters.

`Global.Increment` and `Global.Decrement` model Java `int` arithmetic on
`numRecords`, so a count past 2^31-1 wraps around.

Modules: `Global` (shared types), `BufMgr` (buffer-manager abstraction),
`HeapFiles` (HeapFile.java), `ScanStates` (the scan cursor and the records
it has still to produce), `HeapScans` (HeapScan.java as written) and
`CorrectedScans` (the scan as its javadoc describes it; see Findings).

The corrected scan keeps its cursor on a record at all times. After it
returns the last record of a page, `getNext` moves straight on to the next
page that has a record. `hasNext()` can then answer from the scan's own
state, without reading any page it has not pinned.

## Where the code and its own javadoc differ

The model follows the code in each of these cases:

- The javadoc of `insertRecord` (HeapFile.java:114) promises an
  IllegalArgumentException for a record that is too large. The code
  catches that exception itself (lines 128-130) and returns `null`. It
  never stores the bytes and always returns `null`, even on success.
- The javadoc of `deleteFile` (HeapFile.java:91) promises to free all of
  the file's pages. The loop (lines 96-102) stops at the first `freePage`
  failure, leaving the later pages allocated. It does not remove the
  file's directory entry.
- The javadoc of `getRecCnt` (HeapFile.java:204) promises "the number of
  records in the file". The constructor sets the count to 0 even when it
  opens an existing file (HeapFile.java:55; for a `null` name it keeps the
  default 0 of line 24). The count therefore covers only records inserted
  and deleted through this object.
- The javadoc of `deleteRecord` (HeapFile.java:184) promises an
  IllegalArgumentException for an invalid RID. The code catches it (lines
  197-199) and returns `false`.
- The javadoc of `updateRecord` (HeapFile.java:160) promises an
  IllegalArgumentException for an invalid RID or record. The code catches
  it (lines 175-177) and returns `false`.
- The javadoc of `getNext` (HeapScan.java:65) promises an
  IllegalStateException once the scan has no more elements. The code
  returns `null` instead (lines 86 and 97).
- For a name not yet in the directory, the constructor registers a
  default-constructed (unset) page id under that name. It also marks the
  file temporary.
- `deleteRecord` decrements the count whenever its blank RID check
  passes. Nothing stops the count from going negative.
- No operation ever adds a page id after construction. A HeapFile as
  written therefore has at most one page. The scan is modelled over any
  page-id list, because its own logic is written for many pages.

## Model

| member | source | states |
|---|---|---|
| HeapFiles.Create | src/heap/HeapFile.java:34-80 | `null` name: the file is temporary, has no page ids, count 0, and keeps the allocated page id (or the unset id if allocation threw). Existing name: exactly one page id, the directory's, and the file is not temporary. New name: exactly one page id, the unset id, which is also registered in the directory; the file is temporary |
| HeapFiles.CreateFixed | src/heap/HeapFile.java:40-52 | corrected `null`-name branch: the allocated page becomes the file's only page id; a failed allocation is reported, not swallowed; named files open exactly as in `Create` |
| HeapFiles.InsertRecord | src/heap/HeapFile.java:116-132 | a record longer than MAX_TUPSIZE leaves the file unchanged; any other record raises the count by exactly one (mod 2^32) and changes nothing else; the returned RID is always `null` |
| HeapFiles.DeleteRecord | src/heap/HeapFile.java:186-201 | returns true iff the RID check passes; on true the count drops by exactly one (mod 2^32) and nothing else changes; on false the file is unchanged |
| HeapFiles.DeleteUndoesInsert | src/heap/HeapFile.java:121-127 | deleting a valid record after inserting one of acceptable size restores the original file |
| HeapFiles.UpdateRecord | src/heap/HeapFile.java:162-179 | returns true iff both argument checks pass and the record read succeeds; returns false iff either check fails; a failed read surfaces as the getRecord ChainException; the file is never changed |
| HeapFiles.GetRecCnt | src/heap/HeapFile.java:206-209 | returns the stored count and changes nothing; what that count means is stated by the next two rows |
| HeapFiles.CountStartsAtOpen | src/heap/HeapFile.java:34-80 | for a file just opened under any name (new, existing or `null`), `getRecCnt()` after any history equals successful inserts minus successful deletes, as a Java int. Records already on disk are not counted |
| HeapFiles.RecordCountTracksHistory | src/heap/HeapFile.java:206-209 | after any sequence of inserts and deletes, `getRecCnt()` equals the initial count plus successful inserts minus successful deletes, as a Java int; no other field changes |
| Global.Increment | src/heap/HeapFile.java:126 | `numRecords++` yields the int32 congruent to count+1 modulo 2^32 |
| Global.Decrement | src/heap/HeapFile.java:195 | `numRecords--` yields the int32 congruent to count-1 modulo 2^32 |
| HeapFiles.FirstFailure | src/heap/HeapFile.java:96-101 | the index of the first failing `freePage` call: every earlier call succeeds, and the call at that index fails unless it is past the end of the list |
| HeapFiles.DeleteFile | src/heap/HeapFile.java:93-109 | `freePage` is called once per page id, in list order, up to the first failure. A failure throws the ChainException and leaves the file unchanged. Otherwise the count is 0 and both lists are empty. Pin counts are untouched, and the page list stays in step with the frame list |
| HeapScans.OpenScan | src/heap/HeapScan.java:24-33 | fails with IndexOutOfBounds iff the page-id list is empty; otherwise pins exactly the first page once (one log entry), index 0, cursor at that page's first record, remaining records = all records of all pages in order |
| HeapScans.HasNext | src/heap/HeapScan.java:57-59 | for an index inside the list: true iff a page follows the one at the index. It looks only at the list, never at what the pages hold |
| HeapScans.GetNext | src/heap/HeapScan.java:67-98 | with a record at the cursor: returns it, advances within the page, no buffer-manager call, same index. With no record at the cursor, the index moves to index+1 exactly when `hasNext()` holds and otherwise stays, so it stays within the list. A record returned is the next remaining record in page order. A `null` is returned only at the end or on an empty next page, and the scan then no longer holds a pin |
| HeapScans.SamePage | src/heap/HeapScan.java:69-74 | the record branch returns the record at the cursor, which is the next remaining record, and moves the cursor one place along the same page without calling the buffer manager |
| HeapScans.NextPage | src/heap/HeapScan.java:77-93 | the page-advance branch moves to index+1 and produces that page's first record, or returns `null` with nothing pinned when that page is empty |
| HeapScans.LastPageDone | src/heap/HeapScan.java:95-97 | on the last page with no record left, nothing remains, the index is unchanged and `null` is returned |
| HeapScans.PageChangeCalls | src/heap/HeapScan.java:78-86 | a page change calls unpin(current) before pin(next), and unpin(next) for an empty page; the scan never holds two pins |
| HeapScans.NextPageCalls | src/heap/HeapScan.java:77-87 | the page-advance branch keeps the call order and the one-pin discipline |
| HeapScans.LastPageCalls | src/heap/HeapScan.java:95-97 | the last-page branch makes exactly one buffer-manager call, an unpin of the page at the index; it keeps the one-pin discipline and is the last call logged |
| HeapScans.GetNextCalls | src/heap/HeapScan.java:67-98 | each `getNext`: unpin of the old page precedes pin of the new one; a `null` result's last call unpinned the page at the index; a scan holding its pin never holds two |
| HeapScans.PageChangeCounts | src/heap/HeapScan.java:78-86 | a page change moves one pin from the current page to the next one, or drops it when the next page is empty |
| HeapScans.GetNextKeepsCounts | src/heap/HeapScan.java:77-97 | while the scan holds its pin, `getNext` changes no page's pin count except for the scan's own pin |
| HeapScans.Close | src/heap/HeapScan.java:50-52 | one `unpinPage` call on the page at the index, made whether or not the scan still holds its pin. That page's count drops by one and no other count changes. The only other change is that the scan no longer holds a pin; the list, index and cursor are untouched. If the pin was held, this releases it |
| HeapScans.FinalizeAfterCloseUnpinsTwice | src/heap/HeapScan.java:39-45 | `finalize()` calls `close()` again. On a scan that was closed explicitly, the page is unpinned twice, and its count ends one below its value before the scan |
| HeapScans.Steps | src/heap/HeapScan.java:77-79 | over n `getNext` calls the index never decreases, grows by at most n and stays within the list |
| HeapScans.Collect | src/heap/HeapScan.java:67-98 | draining until the first `null` yields a prefix of the remaining records in page order; anything left unread starts at an empty page; no pin is held afterwards |
| HeapScans.CollectReleasesPin | src/heap/HeapScan.java:84-97 | a drain that starts holding the scan's pin ends with every pin count back where it was before the scan pinned |
| HeapScans.TemporaryFileCannotBeScanned | src/heap/HeapScan.java:30 | opening a scan on any file constructed with a `null` name fails with IndexOutOfBounds(0, 0), whatever `newPage` returned |
| HeapScans.CorrectedTemporaryFileScans | src/heap/HeapFile.java:40-52 | with the corrected constructor, a temporary file's scan opens, pins its page once and sees exactly that page's records |
| HeapScans.HasNextMissesLastPage | src/heap/HeapScan.java:57-59 | on the last page with records still unread, `hasNext()` is false while `getNext` returns a record |
| HeapScans.CloseAfterNullUnpinsTwice | src/heap/HeapScan.java:50-52 | after `getNext` returned `null`, `close()` leaves that page's count one below its value before the scan |
| CorrectedScans.OpenScan | src/heap/HeapScan.java:24-33 | rests on the first record of the file, skipping empty pages (an empty page list is allowed); remaining records = all records of all pages in order; the only pin left is the scan's |
| CorrectedScans.Advance | src/heap/HeapScan.java:77-93 | skipping empty pages from a given index: rests on the first page that has a record, pinned, or ends the scan with nothing pinned; the remaining records are exactly those of the pages from that index on |
| CorrectedScans.AdvanceOnePin | src/heap/HeapScan.java:78-86 | while skipping pages the scan never holds two pins |
| CorrectedScans.AdvanceKeepsCounts | src/heap/HeapScan.java:78-86 | skipping pages leaves every pin count as before, apart from the scan's own pin |
| CorrectedScans.GetNext | src/heap/HeapScan.java:67-98 | returns a record iff records remain; it is the next one in page order; None changes nothing, and the scan holds no pin |
| CorrectedScans.LastOnPage | src/heap/HeapScan.java:77-93 | after the last record of a page: returns it, releases the page and rests on the next record of a later page, or ends the scan |
| CorrectedScans.ReleaseThenAdvance | src/heap/HeapScan.java:78-86 | releasing the current page and then advancing never holds two pins |
| CorrectedScans.GetNextOnePin | src/heap/HeapScan.java:67-98 | one `getNext` never leaves the scan holding two pins |
| CorrectedScans.GetNextKeepsCounts | src/heap/HeapScan.java:67-98 | one `getNext` changes no pin count apart from the scan's own pin |
| CorrectedScans.HasNext | src/heap/HeapScan.java:54-59 | reads only the scan's own state, yet is true iff records remain, and so iff `getNext` will return a record |
| CorrectedScans.Close | src/heap/HeapScan.java:47-52 | releases exactly the scan's pin if it holds one, with a single `unpinPage` call logged, else changes nothing; afterwards the scan is exhausted |
| CorrectedScans.CloseIsIdempotent | src/heap/HeapScan.java:39-52 | closing twice equals closing once, so `finalize()` closing a closed scan again does no harm |
| CorrectedScans.Collect | src/heap/HeapScan.java:67-98 | draining yields exactly the remaining records, in order, and ends with nothing pinned |
| CorrectedScans.CollectReleasesPin | src/heap/HeapScan.java:84-97 | draining releases the scan's pin and leaves every other count untouched |
| CorrectedScans.ScanYieldsEveryRecord | src/heap/HeapScan.java:24-98 | open and drain yields every record of every page once, page by page in list order, with all pin counts restored |
| CorrectedScans.EmptyPageEndsScanEarly | src/heap/HeapScan.java:84-86 | over pages [a], [], [c] the scan as written yields only [a]; the corrected scan yields [a, c] |

## Findings

| source | as written | input that shows it | evidently intended | confidence | as-written member | corrected member |
|---|---|---|---|---|---|---|
| src/heap/HeapFile.java:40-52 | for a `null` name the allocated page id is never added to `pageIds` | `new HeapFile(null).openScan()`: `pageIds.get(0)` throws at HeapScan.java:30 | the allocated page is the temporary file's only page | high; not executed | HeapScans.TemporaryFileCannotBeScanned | HeapFiles.CreateFixed |
| src/heap/HeapScan.java:84-86 | an empty page after the first returns `null`, which ends the scan | pages holding [a], [], [c]: the scan yields a, then `null`; c is never produced | empty pages are skipped | high; not executed | CorrectedScans.EmptyPageEndsScanEarly | CorrectedScans.GetNext |
| src/heap/HeapScan.java:50-52 | `close()` unpins the page at the index even after `getNext` already unpinned it (lines 85, 95); `finalize()` (lines 39-45) calls it once more | a one-page file: read every record, get `null`, then `close()` leaves the page's pin count one below its value before the scan | release only a pin the scan still holds | high; not executed | HeapScans.CloseAfterNullUnpinsTwice | CorrectedScans.Close |
| src/heap/HeapScan.java:57-59 | `hasNext()` only asks whether a later page exists | a one-page file with one record: `hasNext()` is false, yet `getNext` returns the record | true iff more records can be read | high; not executed | HeapScans.HasNextMissesLastPage | CorrectedScans.HasNext |

## Left out

- Buffer-manager and disk-manager internals (`newPage`, `pinPage`, `unpinPage`, `freePage`, `get_file_entry`, `add_file_entry`, `read_page`) are external. What `newPage` returns, what the directory holds and which `freePage` calls fail are parameters.
- HeapFiles.Create: the disk-manager calls `get_file_entry` (HeapFile.java:58), `add_file_entry` (line 67) and `read_page` (line 70) always succeed in the model. None of them sits inside a `try`, so in the class an exception from any of them leaves the constructor, and no file is opened. The model does not promise anything about that throw, because the disk manager is not part of the model. This includes `read_page` of the never-allocated `new PageId()` at line 70, which the source itself marks with a TODO at line 69. Only `newPage`'s failure in the `null`-name branch (lines 45-49, caught) is modelled.
- `pinPage` and `unpinPage` never fail in the model, because the buffer manager's frame table is not part of it. A pin count may go below zero where the real buffer manager would throw on an unpinned page. Also missing: a `pinPage` that throws at HeapScan.java:79, for example when every frame is pinned. That throw comes after the unpin and the `pageIdIndex++` at line 78, so it would leave the scan on the next page holding nothing, and a later `close()` would unpin a page the scan never pinned. The same kind of throw at line 30 fails the constructor.
- The pin that `newPage` places on a temporary file's first page is not modelled. The buffer manager is not part of this model.
- HFPage internals and the Tuple byte layout are not shown. A page is the sequence of its live RIDs. `getNext` is modelled by the RID it writes into `rid`; the bytes of the returned Tuple are not modelled.
- `hfPage.setCurPage` in the constructor touches only HFPage state, which is not modelled.
- `getRecord`'s offset/length handling is an unfinished stub over HFPage. Only its failure is modelled, as the `readOk` flag of `UpdateRecord`.
- `updateRecord`'s body beyond its argument checks is an unfinished stub. The two blank checks are the uninterpreted predicates `ridValid` and `recordValid`. The blank check in `deleteRecord` is `ridValid`.
- `HeapFile.finalize()` is empty.
- `HeapScan.finalize()` (HeapScan.java:39-45) is not modelled as a step of the scan, because the garbage collector decides when, and whether, it runs. Its one effect that matters, a further `close()`, is what HeapScans.FinalizeAfterCloseUnpinsTwice states. That lemma shows an explicitly closed scan is unpinned once more when it is collected.
- `toString()` only returns the name.
- `printStackTrace` calls are output only.
- `SpaceNotAvailableException` is a bare exception subclass.
- MAX_TUPSIZE (defined in global.GlobalConst, which is not part of this model) is the parameter `maxTupSize`.
- A scan shares the file's `pageIds` list. The model gives the scan a snapshot, so changes to the file during a scan are not modelled.
- The scan field `pinned` does not exist in the Java class. The model adds it to record whether the scan still holds its pin.
- The corrected scan pins and reads every page it skips while `getNext` moves ahead. It never reads a page without pinning it.

=== FILE: bufmgr.dfy ===
/**
 The buffer manager as the heap-file layer sees it: a pin count per page
 and the sequence of calls made to it. Its own behaviour (frames, eviction,
 disk I/O, the exceptions it may raise) is outside this model. A pin count
 may go below zero here: that records an unpin no pin matched.
 */
module BufMgr {
  import opened Global

  /** One call into the buffer manager. */
  datatype Event = Pin(pid: PageId) | Unpin(pid: PageId, dirty: bool) | Free(pid: PageId)

  /** Pin counts (absent pages count zero) and the call log, oldest first. */
  datatype Pool = Pool(pins: map<PageId, int>, log: seq<Event>)

  function PinCount(pool: Pool, p: PageId): int
  {
    if p in pool.pins then pool.pins[p] else 0
  }

  /** `pinPage(p, page, false)`. */
  function PinPage(pool: Pool, p: PageId): (r: Pool)
    ensures PinCount(r, p) == PinCount(pool, p) + 1
    ensures forall q :: q != p ==> PinCount(r, q) == PinCount(pool, q)
    ensures r.log == pool.log + [Pin(p)]
  {
    Pool(pool.pins[p := PinCount(pool, p) + 1], pool.log + [Pin(p)])
  }

  /** `unpinPage(p, dirty)`. */
  function UnpinPage(pool: Pool, p: PageId, dirty: bool): (r: Pool)
    ensures PinCount(r, p) == PinCount(pool, p) - 1
    ensures forall q :: q != p ==> PinCount(r, q) == PinCount(pool, q)
    ensures r.log == pool.log + [Unpin(p, dirty)]
  {
    Pool(pool.pins[p := PinCount(pool, p) - 1], pool.log + [Unpin(p, dirty)])
  }

  /** A `freePage(p)` call that returned normally. */
  function FreePage(pool: Pool, p: PageId): (r: Pool)
    ensures r.pins == pool.pins
    ensures r.log == pool.log + [Free(p)]
  {
    Pool(pool.pins, pool.log + [Free(p)])
  }

  /** `later` is `earlier` with further calls appended. */
  predicate Extends(earlier: Pool, later: Pool)
  {
    |earlier.log| <= |later.log| && later.log[..|earlier.log|] == earlier.log
  }

  /** The calls made since `earlier`. */
  function Since(earlier: Pool, later: Pool): seq<Event>
    requires Extends(earlier, later)
  {
    later.log[|earlier.log|..]
  }

  /** The change one call makes to the number of pins held. */
  function Net(e: Event): int
  {
    match e
    case Pin(_) => 1
    case Unpin(_, _) => -1
    case Free(_) => 0
  }

  function NetOf(events: seq<Event>): int
    decreases |events|
  {
    if events == [] then 0 else Net(events[0]) + NetOf(events[1..])
  }

  /** Starting from `held` pins, the calls never leave a holder with fewer
      than zero or more than one pin at any instant. */
  predicate OnePinAtATime(held: int, events: seq<Event>)
    decreases |events|
  {
    0 <= held <= 1 && (events == [] || OnePinAtATime(held + Net(events[0]), events[1..]))
  }

  lemma {:induction false} OnePinAtATimeAppend(held: int, a: seq<Event>, b: seq<Event>)
    requires OnePinAtATime(held, a)
    requires OnePinAtATime(held + NetOf(a), b)
    ensures OnePinAtATime(held, a + b)
    decreases |a|
  {
    if a == [] {
      assert a + b == b;
    } else {
      assert (a + b)[1..] == a[1..] + b;
      OnePinAtATimeAppend(held + Net(a[0]), a[1..], b);
    }
  }

  /** Pinning a page and unpinning it again is balanced and never holds
      two pins. */
  lemma PinThenUnpin(p: PageId, dirty: bool)
    ensures OnePinAtATime(0, [Pin(p), Unpin(p, dirty)])
    ensures NetOf([Pin(p), Unpin(p, dirty)]) == 0
  {
    var tail := [Unpin(p, dirty)];
    assert [Pin(p), Unpin(p, dirty)][1..] == tail && tail[1..] == [];
    assert NetOf(tail) == -1;
  }

  /** Releasing the one pin held. */
  lemma ReleaseOne(p: PageId, dirty: bool)
    ensures OnePinAtATime(1, [Unpin(p, dirty)])
    ensures NetOf([Unpin(p, dirty)]) == -1
  {
    assert [Unpin(p, dirty)][1..] == [];
  }

  /** A pin followed later by an unpin of the same page leaves every
      page's count where it was. */
  lemma UnpinUndoesPin(pool: Pool, p: PageId, dirty: bool)
    ensures forall q :: PinCount(UnpinPage(PinPage(pool, p), p, dirty), q) == PinCount(pool, q)
  {
  }
}

=== FILE: corrected_scan.dfy ===
/**
 The heap-file scan as its documentation describes it, over the same state
 as heap.HeapScan: empty pages are skipped instead of ending the scan,
 `hasNext()` says whether `getNext` will produce a record, and `close()`
 releases the scan's pin only if it still holds one.

 The cursor always rests on a record: after producing the last record of a
 page, `getNext` moves straight on to the next page that has one, so
 `hasNext()` reads only the scan's own state and never consults a page it
 has not pinned. `index == |pageIds|` is the exhausted state, in which no
 page is pinned; otherwise the scan holds exactly one pin, on the page at
 `index`.
 */
module CorrectedScans {
  import opened Global
  import opened BufMgr
  import HeapFiles
  import HeapScans
  import opened ScanStates

  /** The corrected scan's states: pinned exactly while a page remains at
      `index`, and then resting on one of that page's records. */
  predicate Live(s: Scan, contents: Contents)
  {
    && Positioned(s, contents)
    && (s.pinned <==> s.index < |s.pageIds|)
    && (s.index < |s.pageIds| ==> s.pos < |Page(s, contents)|)
  }

  /** The number of pins a scan in state `s` holds. */
  function PinsHeld(s: Scan): int
  {
    if s.pinned then 1 else 0
  }

  /** Visit the pages from `i` on, pinning each in turn and unpinning the
      empty ones, and rest on the first record found; with none left, end
      the scan with nothing pinned. */
  function Advance(ids: seq<PageId>, i: int, pool: Pool, contents: Contents): (r: Started)
    requires 0 <= i <= |ids|
    ensures Live(r.scan, contents) && r.scan.pageIds == ids && i <= r.scan.index
    ensures Remaining(r.scan, contents) == Flatten(ids[i..], contents)
    decreases |ids| - i
  {
    if i == |ids| then
      Started(Scan(ids, i, 0, false), pool)
    else
      var pinned := PinPage(pool, ids[i]);
      var page := contents(ids[i]);
      FlattenAt(ids, i, contents);
      if page == [] then
        Advance(ids, i + 1, UnpinPage(pinned, ids[i], false), contents)
      else
        assert page[0..] == page;
        Started(Scan(ids, i, 0, true), pinned)
  }

  /** While advancing, a pin is taken only after the previous page was
      released: the holder never has two pins at once. */
  lemma {:induction false} AdvanceOnePin(ids: seq<PageId>, i: int, pool: Pool, contents: Contents)
    requires 0 <= i <= |ids|
    ensures var r := Advance(ids, i, pool, contents);
      Extends(pool, r.pool) && OnePinAtATime(0, Since(pool, r.pool))
    decreases |ids| - i
  {
    if i == |ids| {
      assert Since(pool, Advance(ids, i, pool, contents).pool) == [];
    } else if contents(ids[i]) == [] {
      var released := UnpinPage(PinPage(pool, ids[i]), ids[i], false);
      var r := Advance(ids, i + 1, released, contents);
      assert Advance(ids, i, pool, contents) == r;
      AdvanceOnePin(ids, i + 1, released, contents);
      SkipEmptyPage(pool, released, r.pool, ids[i]);
    } else {
      assert Since(pool, Advance(ids, i, pool, contents).pool) == [Pin(ids[i])];
    }
  }

  /** Pinning and unpinning an empty page before the rest of the walk keeps
      the walk to one pin at a time. */
  lemma SkipEmptyPage(pool: Pool, released: Pool, after: Pool, p: PageId)
    requires released == UnpinPage(PinPage(pool, p), p, false)
    requires Extends(released, after) && OnePinAtATime(0, Since(released, after))
    ensures Extends(pool, after) && OnePinAtATime(0, Since(pool, after))
  {
    var first := [Pin(p), Unpin(p, false)];
    assert Since(pool, after) == first + Since(released, after);
    PinThenUnpin(p, false);
    OnePinAtATimeAppend(0, first, Since(released, after));
  }

  /** Advancing leaves behind only the scan's own pin. */
  lemma {:induction false} AdvanceKeepsCounts(ids: seq<PageId>, i: int, pool: Pool, contents: Contents)
    requires 0 <= i <= |ids|
    ensures var r := Advance(ids, i, pool, contents);
      forall p :: PinCount(r.pool, p) == PinCount(pool, p) + Held(r.scan, p)
    decreases |ids| - i
  {
    if i < |ids| && contents(ids[i]) == [] {
      var released := UnpinPage(PinPage(pool, ids[i]), ids[i], false);
      UnpinUndoesPin(pool, ids[i], false);
      AdvanceKeepsCounts(ids, i + 1, released, contents);
    }
  }

  /** `openScan()`: rest on the first record of the file, skipping empty
      pages; the only pin left behind is the scan's own. */
  function OpenScan(hf: HeapFiles.HeapFile, pool: Pool, contents: Contents): (r: Started)
    ensures Live(r.scan, contents) && r.scan.pageIds == hf.pageIds
    ensures Remaining(r.scan, contents) == Flatten(hf.pageIds, contents)
    ensures forall p :: PinCount(r.pool, p) == PinCount(pool, p) + Held(r.scan, p)
  {
    AdvanceKeepsCounts(hf.pageIds, 0, pool, contents);
    assert hf.pageIds[0..] == hf.pageIds;
    Advance(hf.pageIds, 0, pool, contents)
  }

  /** `getNext(rid)`: the next record in page order, or None once every
      record has been produced, in which case nothing changes. */
  function GetNext(s: Scan, pool: Pool, contents: Contents): (r: Step)
    requires Live(s, contents)
    ensures Live(r.scan, contents) && r.scan.pageIds == s.pageIds && s.index <= r.scan.index
    ensures r.out.Some? <==> Remaining(s, contents) != []
    ensures r.out.Some? ==>
      && r.out.value == Remaining(s, contents)[0]
      && Remaining(r.scan, contents) == Remaining(s, contents)[1..]
    ensures r.out.None? ==> r.scan == s && r.pool == pool && !r.scan.pinned
  {
    var ids := s.pageIds;
    if s.index == |ids| then
      Step(s, pool, None)
    else
      var page := Page(s, contents);
      if s.pos + 1 < |page| then
        Step(s.(pos := s.pos + 1), pool, Some(page[s.pos]))
      else
        LastOnPage(s, pool, contents)
  }

  /** The branch of `getNext` that produces the last record of the current
      page: release the page and move on to the next record. */
  function LastOnPage(s: Scan, pool: Pool, contents: Contents): (r: Step)
    requires Live(s, contents) && s.index < |s.pageIds| && s.pos + 1 == |Page(s, contents)|
    ensures Live(r.scan, contents) && r.scan.pageIds == s.pageIds && s.index < r.scan.index
    ensures r.out == Some(Remaining(s, contents)[0])
    ensures Remaining(r.scan, contents) == Remaining(s, contents)[1..]
  {
    var ids := s.pageIds;
    var page := Page(s, contents);
    assert page[s.pos..] == [page[s.pos]];
    var next := Advance(ids, s.index + 1, UnpinPage(pool, ids[s.index], false), contents);
    Step(next.scan, next.pool, Some(page[s.pos]))
  }

  /** One `getNext` never leaves the scan holding two pins. */
  lemma GetNextOnePin(s: Scan, pool: Pool, contents: Contents)
    requires Live(s, contents)
    ensures var r := GetNext(s, pool, contents);
      Extends(pool, r.pool) && OnePinAtATime(PinsHeld(s), Since(pool, r.pool))
  {
    var ids := s.pageIds;
    if s.index == |ids| || s.pos + 1 < |Page(s, contents)| {
      assert Since(pool, GetNext(s, pool, contents).pool) == [];
    } else {
      ReleaseThenAdvance(pool, ids[s.index], ids, s.index + 1, contents);
      assert GetNext(s, pool, contents).pool
          == Advance(ids, s.index + 1, UnpinPage(pool, ids[s.index], false), contents).pool;
    }
  }

  /** Releasing the held page and then advancing never holds two pins. */
  lemma ReleaseThenAdvance(pool: Pool, cur: PageId, ids: seq<PageId>, i: int, contents: Contents)
    requires 0 <= i <= |ids|
    ensures var r := Advance(ids, i, UnpinPage(pool, cur, false), contents);
      Extends(pool, r.pool) && OnePinAtATime(1, Since(pool, r.pool))
  {
    var released := UnpinPage(pool, cur, false);
    var after := Advance(ids, i, released, contents).pool;
    AdvanceOnePin(ids, i, released, contents);
    var first := [Unpin(cur, false)];
    assert Since(pool, after) == first + Since(released, after);
    ReleaseOne(cur, false);
    OnePinAtATimeAppend(1, first, Since(released, after));
  }

  /** One `getNext` changes no pin count but that of the page the scan
      holds. */
  lemma GetNextKeepsCounts(s: Scan, pool: Pool, contents: Contents)
    requires Live(s, contents)
    ensures var r := GetNext(s, pool, contents);
      forall p :: PinCount(r.pool, p) - Held(r.scan, p) == PinCount(pool, p) - Held(s, p)
  {
    var ids := s.pageIds;
    if s.index < |ids| && s.pos + 1 == |Page(s, contents)| {
      AdvanceKeepsCounts(ids, s.index + 1, UnpinPage(pool, ids[s.index], false), contents);
    }
  }

  /** `hasNext()`: whether the scan is resting on a record. It reads only
      the scan's own state, yet it is true exactly when `getNext` will
      produce a record. */
  function HasNext(s: Scan, contents: Contents): (b: bool)
    requires Live(s, contents)
    ensures b <==> Remaining(s, contents) != []
    ensures forall pool :: b <==> GetNext(s, pool, contents).out.Some?
  {
    s.index < |s.pageIds|
  }

  /** `close()`: release the scan's pin if it holds one; the scan is then
      exhausted. */
  function Close(s: Scan, pool: Pool): (r: Closed)
    ensures !r.scan.pinned && r.scan.index == |s.pageIds| && r.scan.pageIds == s.pageIds
    ensures forall p :: PinCount(r.pool, p) == PinCount(pool, p) - Held(s, p)
    ensures !s.pinned ==> r.pool == pool
    ensures s.pinned && 0 <= s.index < |s.pageIds| ==> r.pool.log == pool.log + [Unpin(s.pageIds[s.index], false)]
  {
    var done := Scan(s.pageIds, |s.pageIds|, 0, false);
    if s.pinned && 0 <= s.index < |s.pageIds| then
      Closed(done, UnpinPage(pool, s.pageIds[s.index], false))
    else
      Closed(done, pool)
  }

  /** Closing twice is the same as closing once, so a `finalize()` that
      closes an explicitly closed scan again does no harm. */
  lemma CloseIsIdempotent(s: Scan, pool: Pool)
    ensures var once := Close(s, pool);
      Close(once.scan, once.pool) == once
  {
  }

  /** Draining a scan produces exactly its remaining records, in order. */
  function Collect(s: Scan, pool: Pool, contents: Contents): (r: Drain)
    requires Live(s, contents)
    ensures Live(r.scan, contents) && !r.scan.pinned
    ensures r.records == Remaining(s, contents)
    decreases |Remaining(s, contents)|
  {
    var st := GetNext(s, pool, contents);
    if st.out.None? then
      Drain([], st.scan, st.pool)
    else
      var rest := Collect(st.scan, st.pool, contents);
      Drain([st.out.value] + rest.records, rest.scan, rest.pool)
  }

  /** A drain releases the scan's pin and leaves every other count alone. */
  lemma {:induction false} CollectReleasesPin(s: Scan, pool: Pool, contents: Contents)
    requires Live(s, contents)
    ensures var r := Collect(s, pool, contents);
      forall p :: PinCount(r.pool, p) == PinCount(pool, p) - Held(s, p)
    decreases |Remaining(s, contents)|
  {
    var st := GetNext(s, pool, contents);
    GetNextKeepsCounts(s, pool, contents);
    if st.out.Some? {
      CollectReleasesPin(st.scan, st.pool, contents);
    }
  }

  /** A scan of a file produces every record of every page exactly once,
      page by page in list order, and hands back every pin it took. */
  lemma ScanYieldsEveryRecord(hf: HeapFiles.HeapFile, pool: Pool, contents: Contents)
    ensures var st := OpenScan(hf, pool, contents);
      var d := Collect(st.scan, st.pool, contents);
      && d.records == Flatten(hf.pageIds, contents)
      && forall p :: PinCount(d.pool, p) == PinCount(pool, p)
  {
    var st := OpenScan(hf, pool, contents);
    CollectReleasesPin(st.scan, st.pool, contents);
  }

  const PageA: PageId := PageId(1)
  const PageB: PageId := PageId(2)
  const PageC: PageId := PageId(3)
  const RecordA: Rid := Rid(PageA, 0)
  const RecordC: Rid := Rid(PageC, 0)

  /** Three pages: one record, none, one record. */
  function SparseContents(p: PageId): seq<Rid>
  {
    if p == PageA then [RecordA] else if p == PageC then [RecordC] else []
  }

  function SparseFile(): HeapFiles.HeapFile
  {
    HeapFiles.HeapFile(Some("sparse"), 2, false, PageA, [PageA, PageB, PageC],
                       [HeapFiles.NullFrame, HeapFiles.NullFrame, HeapFiles.NullFrame])
  }

  /** Over pages holding [a], [], [c], the scan as written returns `null`
      after `a` and never reaches `c`; the corrected scan produces both. */
  lemma EmptyPageEndsScanEarly(pool: Pool)
    ensures HeapScans.OpenScan(SparseFile(), pool, SparseContents).Success?
    ensures var st := HeapScans.OpenScan(SparseFile(), pool, SparseContents).value;
      HeapScans.Collect(st.scan, st.pool, SparseContents).records == [RecordA]
    ensures var st := OpenScan(SparseFile(), pool, SparseContents);
      Collect(st.scan, st.pool, SparseContents).records == [RecordA, RecordC]
  {
    var ids := [PageA, PageB, PageC];
    var st := HeapScans.OpenScan(SparseFile(), pool, SparseContents).value;
    var s0 := st.scan;
    assert s0 == Scan(ids, 0, 0, true);
    var first := HeapScans.GetNext(s0, st.pool, SparseContents);
    assert first.out == Some(RecordA) && first.scan == Scan(ids, 0, 1, true);
    var second := HeapScans.GetNext(first.scan, first.pool, SparseContents);
    assert second.out == None;
    assert HeapScans.Collect(first.scan, first.pool, SparseContents).records == [];
    assert Flatten(ids[2..], SparseContents) == [RecordC] + Flatten(ids[3..], SparseContents);
    assert Flatten(ids[1..], SparseContents) == [] + Flatten(ids[2..], SparseContents);
    assert Flatten(ids, SparseContents) == [RecordA] + Flatten(ids[1..], SparseContents);
    ScanYieldsEveryRecord(SparseFile(), pool, SparseContents);
  }
}

=== FILE: global.dfy ===
/**
 Values shared by the heap-file layer: Java's `int` and `byte`, page and
 record identifiers, the exceptions the layer raises, and the usual
 Option/Result wrappers that stand for Java's `null` and `throw`.
 */
module Global {

  /** `null` or a value. */
  datatype Option<+T> = None | Some(value: T)

  /** A normal return or a thrown exception. */
  datatype Result<+T, +E> = Success(value: T) | Failure(error: E)

  /** Java `int`: 32-bit two's complement. */
  newtype int32 = x: int | -0x8000_0000 <= x < 0x8000_0000

  const MinInt32: int32 := -0x8000_0000
  const MaxInt32: int32 := 0x7fff_ffff
  const Modulus32: int := 0x1_0000_0000

  /** Java `byte`; record contents are opaque, only their length matters. */
  newtype byte = b: int | -128 <= b < 128

  /** The int32 congruent to `x` modulo 2^32, i.e. what a Java `int`
      holds after an arithmetic result `x` has been truncated. */
  function Wrap32(x: int): (r: int32)
    ensures (r as int - x) % Modulus32 == 0
    ensures MinInt32 as int <= x <= MaxInt32 as int ==> r as int == x
  {
    ((x - MinInt32 as int) % Modulus32 + MinInt32 as int) as int32
  }

  /** Truncation may be applied early or late: adding to an already
      wrapped value wraps to the same int32. */
  lemma WrapAdd(x: int, d: int)
    ensures Wrap32(Wrap32(x) as int + d) == Wrap32(x + d)
  {
    var w := Wrap32(x) as int;
    var k := (w - x) / Modulus32;
    assert w == x + k * Modulus32;
    assert (w + d - MinInt32 as int) % Modulus32 == (x + d - MinInt32 as int) % Modulus32 by {
      ModuloShift(x + d - MinInt32 as int, k);
    }
  }

  lemma ModuloShift(a: int, k: int)
    ensures (a + k * Modulus32) % Modulus32 == a % Modulus32
    decreases if k < 0 then -k else k
  {
    if k > 0 {
      ModuloShift(a, k - 1);
      assert a + k * Modulus32 == (a + (k - 1) * Modulus32) + Modulus32;
    } else if k < 0 {
      ModuloShift(a, k + 1);
      assert a + k * Modulus32 == (a + (k + 1) * Modulus32) - Modulus32;
    }
  }

  /** Java `x++` on an `int`. */
  function Increment(x: int32): (r: int32)
    ensures r == Wrap32(x as int + 1)
  {
    if x == MaxInt32 then MinInt32 else x + 1
  }

  /** Java `x--` on an `int`. */
  function Decrement(x: int32): (r: int32)
    ensures r == Wrap32(x as int - 1)
  {
    if x == MinInt32 then MaxInt32 else x - 1
  }

  /** A page handle (global.PageId): a page number. */
  datatype PageId = PageId(pid: int)

  /** The value a freshly constructed `new PageId()` holds before any page is
      assigned to it. global.PageId is not part of this model; only the fact
      that it is one fixed sentinel is used. */
  const UnsetPageId: PageId := PageId(-1)

  /** A record identifier (global.RID): page and slot. */
  datatype Rid = Rid(pageNo: PageId, slotNo: int)

  /** The exceptions that leave the heap-file layer. */
  datatype Fault =
    | ChainException(message: string)
    | IndexOutOfBounds(index: int, size: int)
    | AllocationFailed
}

=== FILE: heap_file.dfy ===
/**
 The bookkeeping of a Minibase heap file (heap.HeapFile): its record count,
 its list of page ids with the parallel list of page buffers, and the
 temporary flag. The directory of file entries, the allocator and the
 buffer manager are collaborators whose answers arrive as parameters; the
 record-validity checks the class leaves unwritten are uninterpreted
 predicates supplied by the caller.
 */
module HeapFiles {
  import opened Global
  import opened BufMgr

  /** An entry of the `pages` list: a `null` Page, or the Page the
      constructor created and read from the named disk page. */
  datatype Frame = NullFrame | Loaded(from: PageId)

  datatype HeapFile = HeapFile(
    name: Option<string>,
    numRecords: int32,
    temporary: bool,
    firstPageId: PageId,
    pageIds: seq<PageId>,
    pages: seq<Frame>)

  /** `pages` and `pageIds` are kept in step. */
  predicate Valid(hf: HeapFile)
  {
    |hf.pages| == |hf.pageIds|
  }

  /** `a` and `b` agree on everything but the record count. */
  predicate SameButCount(a: HeapFile, b: HeapFile)
  {
    a == b.(numRecords := a.numRecords)
  }

  /** The disk manager's file-name directory. */
  type Directory = map<string, PageId>

  datatype Opened = Opened(file: HeapFile, directory: Directory)

  /** `new HeapFile(name)`. `newPageId` is what `newPage` returned, or None
      when it threw (the exception is swallowed). For a name the directory
      does not hold, the constructor registers the still-unset page id under
      that name and marks the file temporary. */
  function Create(name: Option<string>, dir: Directory, newPageId: Option<PageId>): (r: Opened)
    ensures Valid(r.file)
    ensures r.file.numRecords == 0 && r.file.name == name
    ensures name.None? ==> r.file.temporary && r.file.pageIds == [] && r.directory == dir
    ensures name.None? ==>
      r.file.firstPageId == (if newPageId.Some? then newPageId.value else UnsetPageId)
    ensures name.Some? ==> r.file.pageIds == [r.file.firstPageId]
    ensures name.Some? ==> (r.file.temporary <==> name.value !in dir)
    ensures name.Some? && name.value in dir ==>
      r.file.firstPageId == dir[name.value] && r.directory == dir
    ensures name.Some? && name.value !in dir ==>
      r.file.firstPageId == UnsetPageId && r.directory == dir[name.value := UnsetPageId]
  {
    match name
    case None =>
      var first := match newPageId case Some(p) => p case None => UnsetPageId;
      Opened(HeapFile(None, 0, true, first, [], []), dir)
    case Some(n) =>
      if n in dir then
        Opened(HeapFile(name, 0, false, dir[n], [dir[n]], [NullFrame]), dir)
      else
        var added := dir[n := UnsetPageId];
        Opened(HeapFile(name, 0, true, UnsetPageId, [UnsetPageId], [Loaded(UnsetPageId)]), added)
  }

  /** The constructor as evidently intended for a temporary file: the page
      `newPage` returned becomes the file's only page, and a failed
      allocation is reported instead of swallowed. Named files are opened
      as before. */
  function CreateFixed(name: Option<string>, dir: Directory, newPageId: Option<PageId>): (r: Result<Opened, Fault>)
    ensures name.Some? ==> r == Success(Create(name, dir, newPageId))
    ensures name.None? ==> (r.Failure? <==> newPageId.None?)
    ensures r.Failure? ==> r.error == AllocationFailed
    ensures r.Success? ==> Valid(r.value.file) && r.value.file.numRecords == 0
    ensures name.None? && newPageId.Some? ==>
      && r.value.file.temporary
      && r.value.file.pageIds == [newPageId.value]
      && r.value.directory == dir
  {
    match name
    case Some(_) => Success(Create(name, dir, newPageId))
    case None =>
      match newPageId
      case None => Failure(AllocationFailed)
      case Some(p) => Success(Opened(HeapFile(None, 0, true, p, [p], [Loaded(p)]), dir))
  }

  datatype Inserted = Inserted(file: HeapFile, rid: Option<Rid>)

  /** `insertRecord(record)` with MAX_TUPSIZE as `maxTupSize`. An oversized
      record raises an IllegalArgumentException that the method itself
      catches, so the caller sees `null`; any other record only bumps the
      count. No RID is ever returned and the bytes are stored nowhere. */
  function InsertRecord(hf: HeapFile, record: seq<byte>, maxTupSize: int): (r: Inserted)
    ensures r.rid == None
    ensures |record| > maxTupSize ==> r.file == hf
    ensures |record| <= maxTupSize ==>
      && SameButCount(r.file, hf)
      && r.file.numRecords == Wrap32(hf.numRecords as int + 1)
    ensures |record| <= maxTupSize && hf.numRecords < MaxInt32 ==>
      r.file.numRecords as int == hf.numRecords as int + 1
  {
    if |record| > maxTupSize then
      Inserted(hf, None)
    else
      Inserted(hf.(numRecords := Increment(hf.numRecords)), None)
  }

  datatype Deleted = Deleted(file: HeapFile, ok: bool)

  /** `deleteRecord(rid)`. `ridValid` stands for the RID check the class
      leaves blank; an invalid RID is caught inside and yields `false`. */
  function DeleteRecord(hf: HeapFile, rid: Rid, ridValid: Rid -> bool): (r: Deleted)
    ensures r.ok <==> ridValid(rid)
    ensures !r.ok ==> r.file == hf
    ensures r.ok ==>
      && SameButCount(r.file, hf)
      && r.file.numRecords == Wrap32(hf.numRecords as int - 1)
    ensures r.ok && hf.numRecords > MinInt32 ==>
      r.file.numRecords as int == hf.numRecords as int - 1
  {
    if !ridValid(rid) then
      Deleted(hf, false)
    else
      Deleted(hf.(numRecords := Decrement(hf.numRecords)), true)
  }

  const GetRecordFailed: string := "HeapFile.getRecord: Failed to retrieve record from HFPage"

  /** `updateRecord(rid, newRecord)`: only its argument checks. The two
      blank checks are `ridValid` and `recordValid`; `readOk` is whether the
      `getRecord` call succeeds, whose ChainException is not caught. The
      file is never changed, so only the outcome is returned. */
  function UpdateRecord(hf: HeapFile, rid: Rid, newRecord: seq<byte>,
                        ridValid: Rid -> bool, recordValid: seq<byte> -> bool,
                        readOk: bool): (r: Result<bool, Fault>)
    ensures r == Success(true) <==> ridValid(rid) && recordValid(newRecord) && readOk
    ensures r == Success(false) <==> !ridValid(rid) || !recordValid(newRecord)
    ensures r.Failure? ==> r.error == ChainException(GetRecordFailed)
  {
    if !ridValid(rid) || !recordValid(newRecord) then Success(false)
    else if !readOk then Failure(ChainException(GetRecordFailed))
    else Success(true)
  }

  /** `getRecCnt()`: the count kept by `insertRecord` and `deleteRecord`;
      RecordCountTracksHistory says what it counts. */
  function GetRecCnt(hf: HeapFile): (n: int32)
    ensures n == hf.numRecords
  {
    hf.numRecords
  }

  /** One count-changing call on a heap file. */
  datatype Op = Insert(record: seq<byte>) | Delete(rid: Rid)

  function Apply(hf: HeapFile, op: Op, maxTupSize: int, ridValid: Rid -> bool): HeapFile
  {
    match op
    case Insert(record) => InsertRecord(hf, record, maxTupSize).file
    case Delete(rid) => DeleteRecord(hf, rid, ridValid).file
  }

  /** The file after the calls `ops`, first to last. */
  function Replay(hf: HeapFile, ops: seq<Op>, maxTupSize: int, ridValid: Rid -> bool): HeapFile
    decreases |ops|
  {
    if ops == [] then hf
    else Replay(Apply(hf, ops[0], maxTupSize, ridValid), ops[1..], maxTupSize, ridValid)
  }

  /** How many of `ops` are inserts that succeed. */
  function Inserts(ops: seq<Op>, maxTupSize: int): nat
    decreases |ops|
  {
    if ops == [] then 0
    else (if ops[0].Insert? && |ops[0].record| <= maxTupSize then 1 else 0) + Inserts(ops[1..], maxTupSize)
  }

  /** How many of `ops` are deletes that succeed. */
  function Deletes(ops: seq<Op>, ridValid: Rid -> bool): nat
    decreases |ops|
  {
    if ops == [] then 0
    else (if ops[0].Delete? && ridValid(ops[0].rid) then 1 else 0) + Deletes(ops[1..], ridValid)
  }

  /** After any history of inserts and deletes, `getRecCnt()` is the initial
      count plus the successful inserts minus the successful deletes, as a
      Java `int`; nothing but the count has changed. */
  lemma {:induction false} RecordCountTracksHistory(hf: HeapFile, ops: seq<Op>, maxTupSize: int, ridValid: Rid -> bool)
    ensures GetRecCnt(Replay(hf, ops, maxTupSize, ridValid))
         == Wrap32(hf.numRecords as int + Inserts(ops, maxTupSize) - Deletes(ops, ridValid))
    ensures SameButCount(Replay(hf, ops, maxTupSize, ridValid), hf)
    decreases |ops|
  {
    if ops != [] {
      var next := Apply(hf, ops[0], maxTupSize, ridValid);
      RecordCountTracksHistory(next, ops[1..], maxTupSize, ridValid);
      var step := (if ops[0].Insert? && |ops[0].record| <= maxTupSize then 1 else 0)
                - (if ops[0].Delete? && ridValid(ops[0].rid) then 1 else 0);
      assert next.numRecords == Wrap32(hf.numRecords as int + step);
      WrapAdd(hf.numRecords as int + step, Inserts(ops[1..], maxTupSize) - Deletes(ops[1..], ridValid));
    }
  }

  /** The constructor starts every file, an existing one included, at a
      count of zero: `getRecCnt()` then counts only the records inserted
      and deleted through this object, never those already on disk. */
  lemma CountStartsAtOpen(name: Option<string>, dir: Directory, newPageId: Option<PageId>,
                          ops: seq<Op>, maxTupSize: int, ridValid: Rid -> bool)
    ensures var hf := Create(name, dir, newPageId).file;
      GetRecCnt(Replay(hf, ops, maxTupSize, ridValid))
        == Wrap32(Inserts(ops, maxTupSize) - Deletes(ops, ridValid))
  {
    RecordCountTracksHistory(Create(name, dir, newPageId).file, ops, maxTupSize, ridValid);
  }

  /** Deleting a valid record undoes inserting one of acceptable size. */
  lemma DeleteUndoesInsert(hf: HeapFile, record: seq<byte>, maxTupSize: int, rid: Rid, ridValid: Rid -> bool)
    requires |record| <= maxTupSize && ridValid(rid)
    ensures DeleteRecord(InsertRecord(hf, record, maxTupSize).file, rid, ridValid).file == hf
  {
    WrapAdd(hf.numRecords as int + 1, -1);
  }

  /** The first of the calls `0 .. n-1` that fails, or `n` when none does. */
  function FirstFailure(fails: nat -> bool, from: nat, n: nat): (k: nat)
    requires from <= n
    ensures from <= k <= n
    ensures forall j :: from <= j < k ==> !fails(j)
    ensures k < n ==> fails(k)
    decreases n - from
  {
    if from == n then n
    else if fails(from) then from
    else FirstFailure(fails, from + 1, n)
  }

  /** The log entries of successful `freePage` calls on `ids`, in order. */
  function FreeEvents(ids: seq<PageId>): seq<Event>
    decreases |ids|
  {
    if ids == [] then [] else FreeEvents(ids[..|ids| - 1]) + [Free(ids[|ids| - 1])]
  }

  const FreePageFailed: string := "HeapFile.deleteFile: Failed to free page"

  /** `deleteFile()`. `freeFails(i)` says whether the i-th `freePage` call
      of this run throws. Pages are freed in list order; the first failure
      ends the loop with a ChainException and the file untouched, otherwise
      the count and both lists are cleared. */
  method DeleteFile(hf: HeapFile, pool: Pool, freeFails: nat -> bool)
    returns (file: HeapFile, after: Pool, error: Option<Fault>)
    ensures var k := FirstFailure(freeFails, 0, |hf.pageIds|);
      && after.log == pool.log + FreeEvents(hf.pageIds[..k])
      && after.pins == pool.pins
      && (error.Some? <==> k < |hf.pageIds|)
    ensures error.Some? ==> file == hf && error.value == ChainException(FreePageFailed)
    ensures error.None? ==>
      && file.numRecords == 0 && file.pageIds == [] && file.pages == []
      && file.name == hf.name && file.temporary == hf.temporary && file.firstPageId == hf.firstPageId
    ensures Valid(hf) ==> Valid(file)
  {
    after := pool;
    var i := 0;
    while i < |hf.pageIds|
      invariant 0 <= i <= |hf.pageIds|
      invariant forall j :: 0 <= j < i ==> !freeFails(j)
      invariant after.log == pool.log + FreeEvents(hf.pageIds[..i])
      invariant after.pins == pool.pins
    {
      if freeFails(i) {
        return hf, after, Some(ChainException(FreePageFailed));
      }
      assert hf.pageIds[..i + 1][..i] == hf.pageIds[..i];
      after := FreePage(after, hf.pageIds[i]);
      i := i + 1;
    }
    assert hf.pageIds[..i] == hf.pageIds;
    file := hf.(numRecords := 0, pageIds := [], pages := []);
    error := None;
  }
}

=== FILE: heap_scan.dfy ===
/**
 The sequential scan of a heap file (heap.HeapScan) as it is written,
 pinning one page at a time; the scan state is ScanStates.Scan.
 */
module HeapScans {
  import opened Global
  import opened BufMgr
  import opened HeapFiles
  import opened ScanStates

  /** `new HeapScan(hf)`, reached through `hf.openScan()`: pin the first
      page of the list and put the cursor on its first record. An empty
      list makes `pageIds.get(0)` throw. */
  function OpenScan(hf: HeapFile, pool: Pool, contents: Contents): (r: Result<Started, Fault>)
    ensures r.Failure? <==> hf.pageIds == []
    ensures r.Failure? ==> r.error == IndexOutOfBounds(0, 0)
    ensures r.Success? ==>
      var s := r.value.scan;
      && OnPage(s, contents) && s.pageIds == hf.pageIds && s.index == 0 && s.pinned
      && Record(s, contents)
         == (if contents(hf.pageIds[0]) == [] then None else Some(contents(hf.pageIds[0])[0]))
      && Remaining(s, contents) == Flatten(hf.pageIds, contents)
      && r.value.pool.log == pool.log + [Pin(hf.pageIds[0])]
      && (forall p :: PinCount(r.value.pool, p) == PinCount(pool, p) + Held(s, p))
  {
    if hf.pageIds == [] then
      Failure(IndexOutOfBounds(0, 0))
    else
      var s := Scan(hf.pageIds, 0, 0, true);
      assert hf.pageIds[1..] == hf.pageIds[0 + 1..];
      Success(Started(s, PinPage(pool, hf.pageIds[0])))
  }

  /** `hasNext()`: whether a page follows the one at `index`. It looks at
      the list only, so when it is false the scan has no record beyond the
      current page, whatever the pages hold, and when it is true a later
      page exists even if every later page is empty. */
  function HasNext(s: Scan): (b: bool)
    ensures 0 <= s.index < |s.pageIds| ==> (b <==> s.pageIds[s.index + 1..] != [])
  {
    s.index < |s.pageIds| - 1
  }

  /** `getNext(rid)`: produce the cursor's record if it has one; otherwise
      move to the next page, unpinning the current one first, and produce
      its first record, or give up with `null` if that page is empty; on the
      last page, unpin it and return `null`. */
  function GetNext(s: Scan, pool: Pool, contents: Contents): (r: Step)
    requires OnPage(s, contents)
    ensures OnPage(r.scan, contents) && r.scan.pageIds == s.pageIds
    ensures r.scan.index == s.index || (r.scan.index == s.index + 1 && HasNext(s))
    ensures Record(s, contents).None? ==> (r.scan.index == s.index + 1 <==> HasNext(s))
    ensures Record(s, contents).Some? ==>
      r.out == Record(s, contents) && r.pool == pool && r.scan == s.(pos := s.pos + 1)
    ensures r.out.Some? ==>
      && Remaining(s, contents) != []
      && r.out.value == Remaining(s, contents)[0]
      && Remaining(r.scan, contents) == Remaining(s, contents)[1..]
    ensures r.out.None? ==>
      && Remaining(r.scan, contents) == Remaining(s, contents)
      && (Remaining(s, contents) != [] ==> Page(r.scan, contents) == [] && r.scan.pos == 0)
    ensures r.out.None? ==> !r.scan.pinned
    ensures s.pinned && r.out.Some? ==> r.scan.pinned
  {
    if Record(s, contents).Some? then
      SamePage(s, pool, contents)
    else if HasNext(s) then
      NextPage(s, pool, contents)
    else
      LastPageDone(s, pool, contents)
  }

  /** The first branch of `getNext`: produce the record at the cursor and
      step to the next one on the same page, without a buffer-manager
      call. */
  function SamePage(s: Scan, pool: Pool, contents: Contents): (r: Step)
    requires OnPage(s, contents) && Record(s, contents).Some?
    ensures OnPage(r.scan, contents)
    ensures r.out == Record(s, contents) && r.pool == pool && r.scan == s.(pos := s.pos + 1)
    ensures Remaining(s, contents) != []
    ensures r.out.value == Remaining(s, contents)[0]
    ensures Remaining(r.scan, contents) == Remaining(s, contents)[1..]
  {
    var page := Page(s, contents);
    var later := Flatten(s.pageIds[s.index + 1..], contents);
    assert Remaining(s, contents) == page[s.pos..] + later;
    assert Remaining(s.(pos := s.pos + 1), contents) == page[s.pos + 1..] + later;
    DropHead(page, s.pos, later);
    Step(s.(pos := s.pos + 1), pool, Some(page[s.pos]))
  }

  /** Dropping the first record of a page's unread part. */
  lemma DropHead(page: seq<Rid>, pos: nat, later: seq<Rid>)
    requires pos < |page|
    ensures (page[pos..] + later)[0] == page[pos]
    ensures (page[pos..] + later)[1..] == page[pos + 1..] + later
  {
    assert page[pos..] == [page[pos]] + page[pos + 1..];
  }

  /** The `hasNext()` branch of `getNext`: unpin the current page, pin the
      next, and produce its first record or give up on an empty page. */
  function NextPage(s: Scan, pool: Pool, contents: Contents): (r: Step)
    requires OnPage(s, contents) && Record(s, contents).None? && HasNext(s)
    ensures OnPage(r.scan, contents) && r.scan.pageIds == s.pageIds
    ensures r.scan.index == s.index + 1
    ensures r.out.Some? ==>
      && Remaining(s, contents) != []
      && r.out.value == Remaining(s, contents)[0]
      && Remaining(r.scan, contents) == Remaining(s, contents)[1..]
      && r.scan.pinned
    ensures r.out.None? ==>
      && Remaining(r.scan, contents) == Remaining(s, contents)
      && Page(r.scan, contents) == [] && r.scan.pos == 0
      && !r.scan.pinned
  {
    var ids := s.pageIds;
    var i := s.index + 1;
    var next := contents(ids[i]);
    var after := PageChange(pool, ids[s.index], ids[i], next == []);
    FlattenAt(ids, i, contents);
    if next == [] then
      Step(Scan(ids, i, 0, false), after, None)
    else
      Step(Scan(ids, i, 1, true), after, Some(next[0]))
  }

  /** The buffer-manager calls of a page change: unpin `cur`, pin `next`,
      and unpin `next` again when it turns out `empty`. */
  function PageChange(pool: Pool, cur: PageId, next: PageId, empty: bool): Pool
  {
    var advanced := PinPage(UnpinPage(pool, cur, false), next);
    if empty then UnpinPage(advanced, next, false) else advanced
  }

  lemma PageChangeCalls(pool: Pool, cur: PageId, next: PageId, empty: bool)
    ensures var r := PageChange(pool, cur, next, empty);
      && Extends(pool, r)
      && Since(pool, r) == [Unpin(cur, false), Pin(next)] + (if empty then [Unpin(next, false)] else [])
      && OnePinAtATime(1, Since(pool, r))
  {
    var r := PageChange(pool, cur, next, empty);
    ReleaseOne(cur, false);
    if empty {
      PinThenUnpin(next, false);
      OnePinAtATimeAppend(1, [Unpin(cur, false)], [Pin(next), Unpin(next, false)]);
      assert r.log == pool.log + [Unpin(cur, false), Pin(next), Unpin(next, false)];
      assert Since(pool, r) == [Unpin(cur, false)] + [Pin(next), Unpin(next, false)];
    } else {
      var tail := [Pin(next)];
      assert tail[1..] == [] && NetOf(tail) == 1 && OnePinAtATime(0, tail);
      OnePinAtATimeAppend(1, [Unpin(cur, false)], tail);
      assert r.log == pool.log + [Unpin(cur, false), Pin(next)];
      assert Since(pool, r) == [Unpin(cur, false)] + tail;
    }
  }

  /** The final branch of `getNext`: on the last page with no record left,
      unpin it and return `null`. */
  function LastPageDone(s: Scan, pool: Pool, contents: Contents): (r: Step)
    requires OnPage(s, contents) && Record(s, contents).None? && !HasNext(s)
    ensures OnPage(r.scan, contents) && r.scan == s.(pinned := false)
    ensures r.out.None? && Remaining(s, contents) == []
  {
    assert s.pageIds[s.index + 1..] == [];
    Step(s.(pinned := false), UnpinPage(pool, s.pageIds[s.index], false), None)
  }

  /** The buffer-manager calls that one `getNext` from `s` made, ending in
      `r`: a page change unpins the old page before pinning the new one, a
      `null` result has just unpinned the page at `index`, and a scan that
      holds its pin never holds two. */
  predicate CallsInOrder(s: Scan, pool: Pool, r: Step)
    requires 0 <= s.index < |s.pageIds| && 0 <= r.scan.index < |r.scan.pageIds|
  {
    && Extends(pool, r.pool)
    && (r.scan.index == s.index + 1 && r.scan.index < |s.pageIds| ==>
          && |Since(pool, r.pool)| >= 2
          && Since(pool, r.pool)[..2] == [Unpin(s.pageIds[s.index], false), Pin(s.pageIds[r.scan.index])])
    && (r.out.None? ==>
          && |r.pool.log| > 0
          && r.pool.log[|r.pool.log| - 1] == Unpin(r.scan.pageIds[r.scan.index], false))
    && (s.pinned ==> OnePinAtATime(1, Since(pool, r.pool)))
  }

  lemma NextPageCalls(s: Scan, pool: Pool, contents: Contents)
    requires OnPage(s, contents) && Record(s, contents).None? && HasNext(s)
    ensures CallsInOrder(s, pool, NextPage(s, pool, contents))
  {
    var next := s.pageIds[s.index + 1];
    PageChangeCalls(pool, s.pageIds[s.index], next, contents(next) == []);
  }

  lemma LastPageCalls(s: Scan, pool: Pool, contents: Contents)
    requires OnPage(s, contents) && Record(s, contents).None? && !HasNext(s)
    ensures CallsInOrder(s, pool, LastPageDone(s, pool, contents))
    ensures Since(pool, LastPageDone(s, pool, contents).pool) == [Unpin(s.pageIds[s.index], false)]
  {
    var r := LastPageDone(s, pool, contents);
    ReleaseOne(s.pageIds[s.index], false);
    assert Since(pool, r.pool) == [Unpin(s.pageIds[s.index], false)];
  }

  /** Every `getNext` call keeps the pin protocol. */
  lemma GetNextCalls(s: Scan, pool: Pool, contents: Contents)
    requires OnPage(s, contents)
    ensures CallsInOrder(s, pool, GetNext(s, pool, contents))
  {
    var r := GetNext(s, pool, contents);
    if Record(s, contents).Some? {
      assert Since(pool, r.pool) == [];
    } else if HasNext(s) {
      NextPageCalls(s, pool, contents);
    } else {
      LastPageCalls(s, pool, contents);
    }
  }

  /** A scan that holds its pin changes, in one `getNext`, no pin count but
      that of the page it holds: it pins nothing it does not release. */
  lemma GetNextKeepsCounts(s: Scan, pool: Pool, contents: Contents)
    requires OnPage(s, contents) && s.pinned
    ensures var r := GetNext(s, pool, contents);
      forall p :: PinCount(r.pool, p) - Held(r.scan, p) == PinCount(pool, p) - Held(s, p)
  {
    if Record(s, contents).None? && HasNext(s) {
      var ids := s.pageIds;
      var next := ids[s.index + 1];
      PageChangeCounts(pool, ids[s.index], next, contents(next) == []);
      assert NextPage(s, pool, contents).pool == PageChange(pool, ids[s.index], next, contents(next) == []);
    }
  }

  /** A page change moves one pin from `cur` to `next`, or drops it when
      `next` turns out empty. */
  lemma PageChangeCounts(pool: Pool, cur: PageId, next: PageId, empty: bool)
    ensures forall p :: (PinCount(PageChange(pool, cur, next, empty), p)
      == PinCount(pool, p) - (if p == cur then 1 else 0) + (if p == next && !empty then 1 else 0))
  {
    UnpinUndoesPin(UnpinPage(pool, cur, false), next, false);
  }

  /** `close()`: unpin the page at `index`, whether or not the scan still
      holds a pin on it. */
  function Close(s: Scan, pool: Pool): (r: Closed)
    requires 0 <= s.index < |s.pageIds|
    ensures r.scan == s.(pinned := false)
    ensures r.pool.log == pool.log + [Unpin(s.pageIds[s.index], false)]
    ensures forall p :: PinCount(r.pool, p) == PinCount(pool, p) - (if p == s.pageIds[s.index] then 1 else 0)
    ensures s.pinned ==> forall p :: PinCount(r.pool, p) == PinCount(pool, p) - Held(s, p)
  {
    Closed(s.(pinned := false), UnpinPage(pool, s.pageIds[s.index], false))
  }

  /** `finalize()`, run by the garbage collector, calls `close()` again: on
      a scan that was closed explicitly, the page at `index` is unpinned a
      second time and its count ends one below where it was before the scan
      pinned anything. */
  lemma FinalizeAfterCloseUnpinsTwice(s: Scan, pool: Pool, base: Pool, contents: Contents)
    requires OnPage(s, contents) && s.pinned
    requires forall p :: PinCount(pool, p) == PinCount(base, p) + Held(s, p)
    ensures var closed := Close(s, pool);
      var finalized := Close(closed.scan, closed.pool);
      var page := s.pageIds[s.index];
      && finalized.pool.log == pool.log + [Unpin(page, false), Unpin(page, false)]
      && PinCount(finalized.pool, page) == PinCount(base, page) - 1
  {
  }

  /** The state after `n` further `getNext` calls, whatever they return:
      `pageIdIndex` never decreases, moves by at most one page per call,
      and stays within the list. */
  function Steps(s: Scan, pool: Pool, contents: Contents, n: nat): (r: Step)
    requires OnPage(s, contents)
    ensures OnPage(r.scan, contents) && r.scan.pageIds == s.pageIds
    ensures s.index <= r.scan.index <= s.index + n
    decreases n
  {
    if n == 0 then Step(s, pool, None)
    else
      var st := GetNext(s, pool, contents);
      Steps(st.scan, st.pool, contents, n - 1)
  }

  /** Draining produces a prefix of the remaining records, in order, and
      stops early only on an empty page. */
  function Collect(s: Scan, pool: Pool, contents: Contents): (r: Drain)
    requires OnPage(s, contents)
    ensures OnPage(r.scan, contents) && r.scan.pageIds == s.pageIds && !r.scan.pinned
    ensures r.records + Remaining(r.scan, contents) == Remaining(s, contents)
    ensures Remaining(r.scan, contents) != [] ==> Page(r.scan, contents) == []
    decreases |Remaining(s, contents)|
  {
    var st := GetNext(s, pool, contents);
    if st.out.None? then
      Drain([], st.scan, st.pool)
    else
      var rest := Collect(st.scan, st.pool, contents);
      ConsPrefix(st.out.value, Remaining(s, contents), rest.records, Remaining(rest.scan, contents));
      Drain([st.out.value] + rest.records, rest.scan, rest.pool)
  }

  /** A drain that starts holding the scan's pin ends having released it,
      and leaves every other page's count as it found it. */
  lemma {:induction false} CollectReleasesPin(s: Scan, pool: Pool, contents: Contents)
    requires OnPage(s, contents) && s.pinned
    ensures var r := Collect(s, pool, contents);
      forall p :: PinCount(r.pool, p) == PinCount(pool, p) - Held(s, p)
    decreases |Remaining(s, contents)|
  {
    var st := GetNext(s, pool, contents);
    GetNextKeepsCounts(s, pool, contents);
    if st.out.Some? {
      CollectReleasesPin(st.scan, st.pool, contents);
    }
  }

  /** Opening a scan on a temporary file fails: the constructor never
      put a page into its list. */
  lemma TemporaryFileCannotBeScanned(dir: Directory, newPageId: Option<PageId>, pool: Pool, contents: Contents)
    ensures OpenScan(Create(None, dir, newPageId).file, pool, contents) == Failure(IndexOutOfBounds(0, 0))
  {
  }

  /** With the corrected constructor, a temporary file can be scanned: the
      scan pins the page `newPage` returned and sees its records. */
  lemma CorrectedTemporaryFileScans(dir: Directory, p: PageId, pool: Pool, contents: Contents)
    ensures CreateFixed(None, dir, Some(p)).Success?
    ensures var r := OpenScan(CreateFixed(None, dir, Some(p)).value.file, pool, contents);
      && r.Success?
      && Remaining(r.value.scan, contents) == contents(p)
      && PinCount(r.value.pool, p) == PinCount(pool, p) + 1
  {
    var hf := CreateFixed(None, dir, Some(p)).value.file;
    assert Flatten(hf.pageIds, contents) == contents(p) + Flatten([], contents);
  }

  /** On the last page, `hasNext()` is false although `getNext` still has
      records to produce. */
  lemma HasNextMissesLastPage(s: Scan, pool: Pool, contents: Contents)
    requires OnPage(s, contents) && s.index == |s.pageIds| - 1 && Record(s, contents).Some?
    ensures !HasNext(s) && GetNext(s, pool, contents).out.Some?
  {
  }

  /** When `getNext` has returned `null`, a following `close()` unpins the
      same page a second time: its count ends one below where it was before
      the scan pinned anything. */
  lemma CloseAfterNullUnpinsTwice(s: Scan, pool: Pool, base: Pool, contents: Contents)
    requires OnPage(s, contents) && s.pinned
    requires forall p :: PinCount(pool, p) == PinCount(base, p) + Held(s, p)
    ensures var st := GetNext(s, pool, contents);
      st.out.None? ==>
        var page := st.scan.pageIds[st.scan.index];
        PinCount(Close(st.scan, st.pool).pool, page) == PinCount(base, page) - 1
  {
    GetNextKeepsCounts(s, pool, contents);
  }
}

=== FILE: scan_state.dfy ===
/**
 The state of a sequential heap-file scan, shared by the scan as written
 (HeapScans) and the corrected one (CorrectedScans): a cursor made of an
 index into the file's page-id list and a position in the current page.

 A page is abstracted to the sequence of RIDs of its live records, in the
 order `firstRecord`/`nextRecord` visit them; `contents` gives that sequence
 for every page id and does not change while a scan runs. The cursor field
 `record` is the position `pos` in that sequence (`record == null` exactly
 when `pos` is past the end). The field `pinned` is bookkeeping added by the
 model, not by the class: it says whether the scan still holds the pin on
 the page at `index`.
 */
module ScanStates {
  import opened Global
  import opened BufMgr

  /** The live RIDs of each page, in slot order. */
  type Contents = PageId -> seq<Rid>

  /** Every record of the pages `ids`, page by page. */
  function Flatten(ids: seq<PageId>, contents: Contents): seq<Rid>
    decreases |ids|
  {
    if ids == [] then [] else contents(ids[0]) + Flatten(ids[1..], contents)
  }

  lemma FlattenAt(ids: seq<PageId>, k: int, contents: Contents)
    requires 0 <= k < |ids|
    ensures Flatten(ids[k..], contents) == contents(ids[k]) + Flatten(ids[k + 1..], contents)
  {
    assert ids[k..][1..] == ids[k + 1..];
  }

  datatype Scan = Scan(pageIds: seq<PageId>, index: int, pos: nat, pinned: bool)

  /** `index` is at most one past the last page and `pos` lies within the
      page at `index`. */
  predicate Positioned(s: Scan, contents: Contents)
  {
    && 0 <= s.index <= |s.pageIds|
    && (s.index < |s.pageIds| ==> s.pos <= |contents(s.pageIds[s.index])|)
  }

  /** The states heap.HeapScan can reach: `index` names a page of the list. */
  predicate OnPage(s: Scan, contents: Contents)
  {
    Positioned(s, contents) && s.index < |s.pageIds|
  }

  /** The live RIDs of the page at `index`. */
  function Page(s: Scan, contents: Contents): seq<Rid>
    requires 0 <= s.index < |s.pageIds|
  {
    contents(s.pageIds[s.index])
  }

  /** The cursor field `record`. */
  function Record(s: Scan, contents: Contents): Option<Rid>
    requires OnPage(s, contents)
  {
    if s.pos < |Page(s, contents)| then Some(Page(s, contents)[s.pos]) else None
  }

  /** The records not yet produced: the rest of the current page, then
      every later page in list order. */
  function Remaining(s: Scan, contents: Contents): seq<Rid>
    requires Positioned(s, contents)
  {
    if s.index == |s.pageIds| then []
    else Page(s, contents)[s.pos..] + Flatten(s.pageIds[s.index + 1..], contents)
  }

  /** The number of pins the scan holds on page `p`: at most one, on the
      page at `index`. */
  function Held(s: Scan, p: PageId): int
  {
    if s.pinned && 0 <= s.index < |s.pageIds| && p == s.pageIds[s.index] then 1 else 0
  }

  /** A prefix of the tail of `all`, preceded by its head, is a prefix of
      `all`. */
  lemma ConsPrefix(x: Rid, all: seq<Rid>, prefix: seq<Rid>, rest: seq<Rid>)
    requires all != [] && x == all[0] && prefix + rest == all[1..]
    ensures [x] + prefix + rest == all
  {
    assert [x] + prefix + rest == [x] + (prefix + rest);
  }

  datatype Started = Started(scan: Scan, pool: Pool)

  /** One `getNext(rid)` call: the RID produced (written into `rid`, and
      whose bytes are returned), or None for `null`. */
  datatype Step = Step(scan: Scan, pool: Pool, out: Option<Rid>)

  datatype Closed = Closed(scan: Scan, pool: Pool)

  /** The usual loop `while ((t = scan.getNext(rid)) != null)`: the records
      produced up to the first `null`. */
  datatype Drain = Drain(records: seq<Rid>, scan: Scan, pool: Pool)
}
